=== FILE: README.md ===
# JackAss in Dafny

JackAss is a VST plugin that turns host parameter changes and host MIDI into
MIDI on a JACK output port. The plugin objects of one process share at most
one JACK client, and each owns at most one output port: none when the host
gives no callback, or when opening the client or registering the port fails.
This project models
three parts of it:

- **The slot store** (`JackAssInstance`). This is a fixed array of 512
  `midi_data_t` slots. `putEvent` fills the first free slot. `jprocess` drains
  the slots into the port buffer once per cycle and stops at the first free
  slot. The model is the class `SlotStore.Instance`, with `slots` as an
  `array`. Both operations are loops, proved against the functions `Put` and
  `Drained`/`Delivered`. The invariant that the occupied slots form a prefix
  (`Packed`) is kept by every operation, and it is what makes the early stop
  lose nothing.
- **The parameter controller** (`JackAss`). It covers:
  - the 50-entry table from parameter index to MIDI controller number;
  - `setParameter`/`getParameter`;
  - the resend block of `processReplacing`;
  - the event forwarding of `processEvents`;
  - the `getParameterName` switch.

  Each event that `setParameter` (JackAss.cpp:419) or the resend
  (JackAss.cpp:339) queues is a Control Change on MIDI channel 1, with status
  byte 0xB0, as in the Channel Voice Messages of the MIDI 1.0 Detailed
  Specification. Forwarded events keep the host's bytes unchanged.
- **The process-wide state.** The class `Graph.Registry` holds:
  - `gJackClient`, as an optional client;
  - the ordered list `gInstances`;
  - the flag `gNeedMidiResend`.

  The registry also has the two JACK callbacks. The plugin constructor and
  destructor (`Plugin.JackAss`) open, share and close the client. They also
  name the ports `midi-out_NN` and add and remove instances.

Every JACK call is a parameter of the operation that makes it:
- whether the client opens;
- whether the port registers;
- whether the port buffer is available in a cycle (`present`);
- whether each event reservation succeeds (`grant`);
- whether a port id belongs to this client (`mine`).

`JACKASS_SYNTH` is the boolean `synth`. Parameter values are reals. Both
conversions in `int(value*127.0f)` are written out explicitly:
- the float-to-int conversion truncates toward zero;
- the int-to-`unsigned char` conversion reduces modulo 256.

Some consequences of the code that the model makes explicit:
- **The occupied slots are always a prefix of the store.** No gap ever
  appears, even after drains: `PackedIsPrefix`, `PutKeepsPacked` and
  `SlotStore.Instance.Process` show it.
- **The client can stay open with no instance.** This happens when the client
  opened but port registration failed. So the registry invariant is only
  "some instance ⇒ client open", not an equivalence.
- **The resend flag is cleared by `processReplacing`**, not by the JACK process
  callback. Only the first plugin object with an instance whose
  `processReplacing` runs after the flag is set resends; the parameters of
  the other plugin objects are not resent.
- **Values are truncated, not rounded.** The resend sends `int(v*127)`, so
  100/127 is sent as 100 and 0.5 as 63.
- **Port names can repeat.** A port is named after the live instance count
  plus one, not a running counter. After a removal, a new port can get the
  name of one still registered (`PortNameInjective` shows names are equal
  exactly when the counts are).

## Model

| member | source | states |
|---|---|---|
| Midi.Cleared | JackAss.cpp:160 | a consumed slot is free; only its status byte is reset, the other bytes, size and time are kept |
| Midi.ControlChange | JackAss.cpp:135-139 | the event queued for a parameter is a Control Change on channel 1 (status 0xB0), carrying the controller and value, size 3, time 0 |
| Midi.TruncateToInt | JackAss.cpp:419 | `int(x)` truncates toward zero: the result is the integer between 0 and x nearest to x |
| Midi.ToByte | JackAss.cpp:135 | passing an `int` as `unsigned char` keeps values 0..255 and otherwise reduces modulo 256 |
| Midi.CcValue | JackAss.cpp:419 | the data byte `int(value*127.0f)` passed as `unsigned char`; stated by `CcValueInRange`, `CcValueMonotone` and `CcValueRoundTrip` |
| Midi.CcValueInRange | JackAss.cpp:419 | for a value in [0, 1] the sent data byte is floor(v·127) and at most 127 |
| Midi.CcValueMonotone | JackAss.cpp:419 | a larger normalised value never sends a smaller data byte |
| Midi.CcValueRoundTrip | JackAss.cpp:419 | the value k/127 is sent as exactly k, for every 7-bit k |
| SlotStore.FirstEmptyFrom | JackAss.cpp:118-121 | the scan from slot i stops at the first free slot at or after i, or at the end; every slot it passes is occupied |
| SlotStore.FirstEmpty | JackAss.cpp:118-121 | the scan from slot 0 finds the lowest-index free slot, or the end if none is free |
| SlotStore.Put | JackAss.cpp:114-133 | the store after one `putEvent`; its meaning is stated by `PutPlacement`, `PutBlankStatus`, `PutFirstEmpty`, `PutKeepsPacked` and `PutAppends` |
| SlotStore.PutAll | JackAss.cpp:114-133 | the store after a run of `putEvent` calls in order; stated by `PutAllPending` and `CapacityBound` |
| SlotStore.Drained | JackAss.cpp:152-161 | the store after a drain with a port buffer; stated by `DrainEmpties` and `DrainWithGapStrandsEvent` |
| SlotStore.DeliveredUpTo | JackAss.cpp:152-158 | the events written by the first n visits of a drain; stated by `DeliveredAtGranted`, `DeliveredUpToIsSubsequence` and `DeliveredUpToAllGranted` |
| SlotStore.Delivered | JackAss.cpp:152-158 | the events a drain writes to the port buffer; stated by `FillThenDrain` |
| SlotStore.GrantedBelow | JackAss.cpp:157 | the visited slots whose reservation succeeds, listed once each in increasing order, every such slot included |
| SlotStore.DeliveredAtGranted | JackAss.cpp:152-158 | the j-th event a drain writes is the event of the j-th slot whose reservation succeeds |
| SlotStore.FreshStoreEmpty | JackAss.cpp:73-78 | default-constructed slots are all free: 512 slots, nothing pending, prefix invariant holds |
| SlotStore.PutPlacement | JackAss.cpp:114-133 | `putEvent` writes into the lowest-index free slot and no other; with every slot occupied the store is unchanged |
| SlotStore.PutBlankStatus | JackAss.cpp:120-128 | an event whose first byte is 0 leaves the set of occupied slots unchanged |
| SlotStore.PackedIsPrefix | JackAss.cpp:152-155 | the invariant holds iff no occupied slot follows a free one, iff the occupied slots are exactly 0..k-1 for the first free k |
| SlotStore.FirstEmptyIs | JackAss.cpp:118-121 | the first free slot is the only index with all earlier slots occupied and itself free |
| SlotStore.PutFirstEmpty | JackAss.cpp:114-133 | after `putEvent` the first free slot moves up by one when the event has a non-zero status and there was room, and stays otherwise |
| SlotStore.PutKeepsPacked | JackAss.cpp:114-133 | `putEvent` preserves the prefix invariant |
| SlotStore.PutAppends | JackAss.cpp:114-133 | under the invariant, an event with non-zero status is appended to the pending events unless the store is full |
| SlotStore.PutAllPending | JackAss.cpp:114-133 | a batch of events is appended in submission order up to the number of free slots; the rest are dropped; the invariant is kept |
| SlotStore.CapacityBound | JackAss.cpp:62 | an emptied store accepts the first 512 events and drops any further ones; fewer than 512 are all kept |
| SlotStore.DrainEmpties | JackAss.cpp:152-161 | under the invariant a drain leaves every slot free and nothing pending |
| SlotStore.DrainWithGapStrandsEvent | JackAss.cpp:152-155 | without the invariant the early stop would leave an occupied slot after a free one undelivered |
| SlotStore.DeliveredUpToAllGranted | JackAss.cpp:157-158 | when every reservation succeeds the drain writes exactly the visited events, in slot order |
| SlotStore.DeliveredUpToIsSubsequence | JackAss.cpp:152-158 | the drain writes exactly the events of the visited slots whose reservation succeeds, in slot order, so at most one per slot, and nothing when every reservation fails |
| SlotStore.FillThenDrain | JackAss.cpp:114-164 | events put into an emptied store come out of the next drain in submission order, up to 512 |
| SlotStore.Instance.constructor | JackAss.cpp:93-97 | a new instance holds its port and 512 free slots |
| SlotStore.Instance.PutEvent | JackAss.cpp:114-133 | the linear scan leaves the store equal to `Put` of the old store and keeps the invariant |
| SlotStore.Instance.PutEvent3 | JackAss.cpp:135-139 | the three-byte overload stores the event with a zero fourth byte |
| SlotStore.Instance.Process | JackAss.cpp:141-164 | without a port buffer nothing changes; with one, the visited events are written per reservation, the store is drained and every slot is free |
| SlotStore.Instance.Close | JackAss.cpp:99-112 | the port is unregistered only while the client is open, and forgotten in any case |
| Params.ParamEvent | JackAss.cpp:419 | the Control Change `setParameter` queues: controller `kParamMap[index]`, the quantised value; stated by `Midi.ControlChange` |
| Params.ResendEvents | JackAss.cpp:338-339 | the batch the resend block queues; stated by `ResendEventsShape` and `ResendFullVolume` |
| Params.ControllerName | JackAss.cpp:456-611 | the `getParameterName` switch on the controller number, `None` for the default branch; stated by `ControllerNameShape` and `ControllerNameCoversTable` |
| Params.ParameterName | JackAss.cpp:449-612 | `getParameterName` for an index, `None` where the base class answers; stated by `ParameterNameSound` |
| Params.ParamMapShape | JackAss.cpp:41-52 | 50 strictly increasing controller numbers below 0x80, with Volume, Balance and Pan (0x07, 0x08, 0x0A) at indices 5, 6, 8 |
| Params.Hex2RoundTrip | JackAss.cpp:458-460 | the two hex digits in a parameter name read back as the controller number |
| Params.ControllerNameShape | JackAss.cpp:456-611 | every name of the switch starts with `0x`, the controller's two upper-case hex digits and a space, and has at most 18 characters |
| Params.ControllerNameAt | JackAss.cpp:454-611 | every table entry reaches a case of the switch, and its name is well formed |
| Params.ControllerNameCoversTable | JackAss.cpp:456-611 | the switch has a case for a controller iff the controller is in the table, so the default branch is unreachable for a valid index |
| Params.ParameterNameSound | JackAss.cpp:449-612 | a name exists iff the index is valid; it is well formed and its hex digits give back the parameter's controller |
| Params.ResendEventsShape | JackAss.cpp:336-342 | the resend queues one Control Change per parameter, in index order, with controller `kParamMap[i]` and the quantised value, size 3, time 0 |
| Params.ResendFullVolume | JackAss.cpp:336-342 | with Volume at 1.0 the resend carries controller 0x07 with value 127 at position 5 |
| Naming.Decimal | JackAss.cpp:283 | `%u` gives at least one digit, one digit exactly below 10, and no leading zero |
| Naming.ZeroPad2 | JackAss.cpp:283 | `%02u`; stated by `PortNameWidth` and `PortNameRoundTrip` |
| Naming.PortName | JackAss.cpp:277-284 | the port name for a live count; stated by `PortNameRoundTrip`, `PortNameInjective`, `PortNameWidth` and `FirstPortNames` |
| Naming.ClientName | JackAss.cpp:240-263 | the name the client is opened under; stated by `ClientNameFits`, `ClientNameDeterminesHost` and `RoleNamesDisjoint` |
| Naming.DecimalRoundTrip | JackAss.cpp:283 | the decimal digits read back as the number |
| Naming.PortNameRoundTrip | JackAss.cpp:277-284 | the port name is `midi-out_` followed by at least two digits that read back as the count |
| Naming.PortNameInjective | JackAss.cpp:277-284 | two port names are equal exactly when the counts are |
| Naming.PortNameWidth | JackAss.cpp:283 | counts 1 to 99 get exactly two zero-padded digits; 100 and above are not truncated |
| Naming.FirstPortNames | JackAss.cpp:283 | counts 1, 2, 3 give `midi-out_01`, `midi-out_02`, `midi-out_03` |
| Naming.CString | JackAss.cpp:244-247 | the string read from the buffer is its prefix before the first NUL, and contains none |
| Naming.ClientNameFits | JackAss.cpp:242-263 | the client name fits the 256-byte buffer with its NUL, has no NUL inside, and starts with the role name |
| Naming.ClientNameDeterminesHost | JackAss.cpp:244-255 | two hosts give the same client name iff their product strings agree up to 244 characters; a host-derived name never equals the fallback |
| Naming.RoleNamesDisjoint | JackAss.cpp:248-262 | the instrument and the effect never open clients of the same name |
| Graph.RaiseResend | JackAss.cpp:187-195 | the flag after `jconnect_callback`; stated by `RaiseResendIsLevel` and `FlagAfterEvents` |
| Graph.RemoveAll | JackAss.cpp:308 | `std::list::remove`; stated by `RemoveAllMembers`, `RemoveAllElement`, `RemoveAbsent`, `RemoveHead`, `RemoveAppended` and `RemoveInstance` |
| Graph.RaiseResendIsLevel | JackAss.cpp:187-195 | the callback sets the flag exactly for a connection touching one of this client's ports, never clears it, and is idempotent |
| Graph.FlagAfterEvents | JackAss.cpp:187-195 | after any run of notifications the flag is set iff it was set before or one of them was such a connection |
| Graph.RemoveAbsent | JackAss.cpp:308 | removing an instance that is not listed leaves the list unchanged |
| Graph.RemoveAllMembers | JackAss.cpp:308 | after `remove(x)` the list holds exactly the old elements other than x |
| Graph.RemoveAllElement | JackAss.cpp:308 | every element left after `remove(x)` was listed before and differs from x |
| Graph.RemoveHead | JackAss.cpp:308 | removing a first element that is not repeated leaves the rest |
| Graph.RemoveAppended | JackAss.cpp:306-311 | removing the instance just appended restores the list as it was before the append |
| Graph.RemoveInstance | JackAss.cpp:306-311 | removing an instance from a list with distinct slot arrays keeps them distinct and shortens the list by one iff it was listed |
| Graph.Registry.constructor | JackAss.cpp:84-85 | at load time there is no client, no instance and no resend pending |
| Graph.Registry.ProcessCallback | JackAss.cpp:180-185 | every listed instance is drained in list order, each by its own `jprocess`; no other slot array changes, and the registry invariant is kept |
| Graph.Registry.ConnectCallback | JackAss.cpp:187-195 | the flag becomes `RaiseResend` of the old flag and the notification |
| Plugin.DefaultParams | JackAss.cpp:206-212 | the parameter buffer has one entry per table entry |
| Plugin.DefaultParamsSent | JackAss.cpp:206-212 | initially Volume is sent as 100, Balance and Pan as 63, every other controller as 0 |
| Plugin.ForwardOne | JackAss.cpp:360-364 | a non-MIDI event forwards nothing; a MIDI event forwards exactly one record: its three data bytes and a zero fourth byte, size 3, at its `deltaFrames` |
| Plugin.Forwarded | JackAss.cpp:356-365 | the records `processEvents` puts for an event list; stated by `ForwardedSnoc`, `ForwardedStopsAtNull` and `ForwardedShape` |
| Plugin.ForwardedSnoc | JackAss.cpp:356-365 | forwarding handles the event list one event at a time, front to back |
| Plugin.ForwardedStopsAtNull | JackAss.cpp:358-359 | a null entry ends the list: nothing after it is forwarded |
| Plugin.ForwardedShape | JackAss.cpp:356-365 | each forwarded record is a 3-byte event with the data bytes and frame offset of a MIDI event of the list; at most one record per event |
| Plugin.JackAss.constructor | JackAss.cpp:203-291 | defaults set; the client is opened only when none is open; an instance exists iff there is a callback, a client and the port registered; it is appended to the list with port `midi-out_` and the live count plus one |
| Plugin.JackAss.Destroy | JackAss.cpp:306-319 | the instance is removed from the list and its port unregistered while the client is open; the client closes exactly when the list becomes empty |
| Plugin.JackAss.GetParameter | JackAss.cpp:423-429 | the stored value, or zero for an index out of range; stated by the ensures of `Plugin.JackAss.SetParameter`, which reads the value back |
| Plugin.JackAss.SetParameter | JackAss.cpp:409-429 | an invalid index changes nothing; a changed value is stored, read back by `getParameter`, and queued as one Control Change when an instance exists; an unchanged value queues nothing |
| Plugin.JackAss.ProcessReplacing | JackAss.cpp:336-342 | with the flag set and an instance, the whole resend batch is queued and the flag cleared; otherwise the flag and the store are unchanged |
| Plugin.JackAss.ResendParameters | JackAss.cpp:338-339 | the loop queues the resend batch in index order |
| Plugin.JackAss.ProcessEvents | JackAss.cpp:351-368 | returns 0; only the instrument with an instance and an event list changes the store, by putting the forwarded records in order |
| Plugin.JackAss.ForwardEvents | JackAss.cpp:356-365 | the loop puts the forwarded records of the list in order |
| Plugin.PortNamesScenario | JackAss.cpp:240-290 | three plugins loaded into a fresh process share one client named after the host, with ports `midi-out_01` to `midi-out_03` |
| Plugin.LoadUnload | JackAss.cpp:286-319 | loading then unloading a plugin restores the instance list; the client stays closed if it was and opening failed, and closes when no instance is left |
| Plugin.ResendScenario | JackAss.cpp:336-342 | after a connection to one of this client's ports (the connect callback, JackAss.cpp:187-195), the next `processReplacing` of a plugin with an empty store queues exactly its whole parameter state |

## Left out

- The audio part of `processReplacing` (JackAss.cpp:324-334) is not modelled. It is silence or pass-through of float sample buffers.
- Floating point is modelled with reals. Float equality in `setParameter` is real equality, and the defaults 100/127 and 0.5 are exact.
- `getParameterDisplay` is not modelled. It is decimal formatting of a float with `snprintf`.
- The `USE_PROGRAMS` code is not modelled. It is compiled out.
- The constant metadata getters (`getEffectName`, `getProductString`, `getVendorString`, `getVendorVersion`, `canDo`, `getPlugCategory`, the MIDI channel counts) are not modelled.
- The JACK bridge is not modelled. Its calls are success/failure parameters. This covers `jackbridge_*`: opening, registering, port buffers, reservations, `port_is_mine`/`port_by_id`, activation and deactivation.
- The bytes copied into a reserved region are modelled as the whole slot record being appended to the port buffer.
- `AudioEffectX` is not modelled. Its base-class answers are `None` (`getParameterName` for an invalid index or an unknown controller), and its setup calls in the constructor are not modelled.
- The pthread mutex and `volatile` are not modelled. Each operation is one atomic sequential step.
- The effect build's `processEvents` is the base class's. It is modelled as leaving the store unchanged and returning 0.
- A negative `numEvents` is not modelled. The event list is a sequence, and its length is the count.
- The `sprintf` variants per platform are not modelled separately. They all produce the same text, modelled once as `PortName`.
- Graph.Registry.ProcessCallback: the port buffers are returned as values, not written into JACK memory.
- Naming.ClientName: each `char` of `hostBuf` stands for one byte of the host's product string, so the 244-byte cut of `strncat` is a 244-character cut; for a multi-byte UTF-8 product string the model cuts at a different point.
- Plugin.JackAss.Destroy: the registry's ghost footprint `Repr` keeps the slot arrays of removed instances. It only grows.
- Plugin.JackAss.GetParameter: has no ensures of its own, because any would only repeat its two-branch body. Its result is stated by the ensures of `Plugin.JackAss.SetParameter`, which reads it back.

=== FILE: arith.dfy ===
/** Integer helpers shared by the store and the naming code. */
module Arith {

  function Min(a: int, b: int): int
  {
    if a <= b then a else b
  }
}

=== FILE: midi.dfy ===
/**
  Raw MIDI event records as JackAss stores them in its slot buffer, the
  Control Change message the controller emits, and the float-to-byte
  quantisation of a normalised parameter value.
*/
module Midi {

  /** An `unsigned char`. */
  type Byte = x: int | 0 <= x < 0x100

  /** A `VstInt32`. */
  type Int32 = x: int | -0x8000_0000 <= x < 0x8000_0000

  /** The four raw bytes of a `midi_data_t`. */
  type Data4 = s: seq<Byte> | |s| == 4 witness [0, 0, 0, 0]

  /** One slot of an instance's event store (`midi_data_t`): up to four raw
      bytes, the number of valid bytes and the frame offset in the cycle. */
  datatype MidiData = MidiData(data: Data4, size: Byte, time: Int32)

  /** A default-constructed `midi_data_t`: all bytes, size and time zero. */
  const Blank: MidiData := MidiData([0, 0, 0, 0], 0, 0)

  /** A slot is free exactly when its first (status) byte is zero. */
  predicate IsEmpty(m: MidiData) {
    m.data[0] == 0
  }

  /** What the drain leaves in a slot it has consumed: only the status byte is
      reset, the other bytes, the size and the time stay as they were. */
  function Cleared(m: MidiData): (r: MidiData)
    ensures IsEmpty(r)
    ensures r.data[1..] == m.data[1..] && r.size == m.size && r.time == m.time
  {
    m.(data := m.data[0 := 0])
  }

  /** Status byte of a Control Change on MIDI channel 1 (the Channel Voice
      Messages of the MIDI 1.0 Detailed Specification: high nibble 0xB, low
      nibble the zero-based channel). */
  const ControlChangeStatus: Byte := 0xB0

  /** The three-byte event `putEvent(0xB0, controller, value, 3, 0)` stores. */
  function ControlChange(controller: Byte, value: Byte): (r: MidiData)
    ensures !IsEmpty(r)
    ensures r.data[0] / 16 == 0xB && r.data[0] % 16 == 0
    ensures r.data[1] == controller && r.data[2] == value && r.data[3] == 0
    ensures r.size == 3 && r.time == 0
  {
    MidiData([ControlChangeStatus, controller, value, 0], 3, 0)
  }

  /** C++ conversion of a floating value to `int`: truncation toward zero. */
  function TruncateToInt(x: real): (r: int)
    ensures 0.0 <= x ==> 0 <= r && r as real <= x < r as real + 1.0
    ensures x < 0.0 ==> r <= 0 && r as real - 1.0 < x <= r as real
  {
    if x >= 0.0 then x.Floor else -((-x).Floor)
  }

  /** C++ conversion of an `int` to `unsigned char`: reduction modulo 256. */
  function ToByte(i: int): (r: Byte)
    ensures 0 <= i < 0x100 ==> r == i
    ensures (r - i) % 0x100 == 0
  {
    i % 0x100
  }

  /** The data byte `int(value*127.0f)` passed as an `unsigned char`. */
  function CcValue(v: real): Byte {
    ToByte(TruncateToInt(v * 127.0))
  }

  /** For a normalised value the quantisation is `floor(v * 127)`, so it lies in
      the 7-bit data range of a MIDI data byte. */
  lemma CcValueInRange(v: real)
    requires 0.0 <= v <= 1.0
    ensures CcValue(v) == (v * 127.0).Floor
    ensures CcValue(v) <= 127
  {
    assert v * 127.0 <= 127.0;
    assert (v * 127.0).Floor <= 127;
  }

  /** The quantisation is monotone on normalised values. */
  lemma CcValueMonotone(v: real, w: real)
    requires 0.0 <= v <= w <= 1.0
    ensures CcValue(v) <= CcValue(w)
  {
    CcValueInRange(v);
    CcValueInRange(w);
    assert v * 127.0 <= w * 127.0;
  }

  /** Round trip: the normalised value k/127 is sent as the data byte k; in
      particular 0.0 is sent as 0 and 1.0 as 127. */
  lemma CcValueRoundTrip(k: int)
    requires 0 <= k <= 127
    ensures CcValue(k as real / 127.0) == k
  {
    var v := k as real / 127.0;
    assert v * 127.0 == k as real;
    CcValueInRange(v);
  }
}

=== FILE: naming.dfy ===
/**
  The names JackAss gives the shared client and its output ports: the client
  name built from the host's product string, and the port name
  `midi-out_%02u` built from the number of live instances.
*/
module Naming {
  import opened Arith

  // ---------------------------------------------------------------------
  // Decimal rendering, as `sprintf("%02u")` does it

  function DigitChar(d: nat): char
    requires d < 10
  {
    ('0' as int + d) as char
  }

  predicate IsDigit(c: char) {
    '0' <= c <= '9'
  }

  predicate AllDigits(s: string) {
    forall i :: 0 <= i < |s| ==> IsDigit(s[i])
  }

  /** Decimal digits of `n`, without leading zeros. */
  function Decimal(n: nat): (s: string)
    ensures 1 <= |s| && AllDigits(s)
    ensures n < 10 <==> |s| == 1
    ensures n >= 10 ==> s[0] != '0'
    decreases n
  {
    if n < 10 then [DigitChar(n)] else Decimal(n / 10) + [DigitChar(n % 10)]
  }

  /** `%02u`: decimal, padded on the left with zeros to two characters. */
  function ZeroPad2(n: nat): string {
    var d := Decimal(n);
    if |d| < 2 then "0" + d else d
  }

  /** Value of a string of decimal digits (the reading side of `%u`). */
  function ParseDecimal(s: string): nat
    requires AllDigits(s)
  {
    if s == [] then 0 else 10 * ParseDecimal(s[..|s| - 1]) + (s[|s| - 1] as int - '0' as int)
  }

  const PortPrefix: string := "midi-out_"

  /** The name the constructor registers its port under when `count` instances
      (including the new one) are live. */
  function PortName(count: nat): string {
    PortPrefix + ZeroPad2(count)
  }

  lemma {:induction false} DecimalRoundTrip(n: nat)
    ensures ParseDecimal(Decimal(n)) == n
    decreases n
  {
    if n >= 10 {
      DecimalRoundTrip(n / 10);
      var s := Decimal(n);
      assert s[..|s| - 1] == Decimal(n / 10);
    }
  }

  /** A leading zero does not change the value. */
  lemma {:induction false} LeadingZero(s: string)
    requires AllDigits(s)
    ensures AllDigits("0" + s) && ParseDecimal("0" + s) == ParseDecimal(s)
    decreases |s|
  {
    if s != [] {
      var t := "0" + s;
      assert t[..|t| - 1] == "0" + s[..|s| - 1];
      LeadingZero(s[..|s| - 1]);
    }
  }

  /** Round trip: the number can be read back from the digits after the
      prefix, so distinct counts give distinct port names. */
  lemma PortNameRoundTrip(n: nat)
    ensures |PortName(n)| >= |PortPrefix| + 2 && PortName(n)[..|PortPrefix|] == PortPrefix
    ensures AllDigits(PortName(n)[|PortPrefix|..])
    ensures ParseDecimal(PortName(n)[|PortPrefix|..]) == n
  {
    DecimalRoundTrip(n);
    var d := Decimal(n);
    assert PortName(n)[|PortPrefix|..] == ZeroPad2(n);
    if |d| < 2 {
      LeadingZero(d);
    }
  }

  lemma PortNameInjective(m: nat, n: nat)
    ensures PortName(m) == PortName(n) <==> m == n
  {
    PortNameRoundTrip(m);
    PortNameRoundTrip(n);
  }

  /** Counts below 100 give exactly two digits, zero-padded; larger counts
      are not truncated. */
  lemma PortNameWidth(n: nat)
    ensures 1 <= n <= 99 ==> PortName(n) == PortPrefix + [DigitChar(n / 10), DigitChar(n % 10)]
    ensures n >= 100 ==> |PortName(n)| > |PortPrefix| + 2
  {
    if 10 <= n <= 99 {
      assert Decimal(n / 10) == [DigitChar(n / 10)];
    }
    if n >= 100 {
      assert |Decimal(n / 10)| >= 2;
    }
  }

  /** The first three ports are `midi-out_01`, `midi-out_02`, `midi-out_03`. */
  lemma FirstPortNames()
    ensures PortName(1) == "midi-out_01"
    ensures PortName(2) == "midi-out_02"
    ensures PortName(3) == "midi-out_03"
  {
    PortNameWidth(1);
    PortNameWidth(2);
    PortNameWidth(3);
  }

  // ---------------------------------------------------------------------
  // Client name

  /** `0xff - 11`: how many characters of the host string `strncat` appends. */
  const HostNameLimit: nat := 0xff - 11

  /** The size of `strBuf`, terminating NUL included. */
  const NameBufferSize: nat := 0xff + 1

  /** The plugin's role: the instrument (`JACKASS_SYNTH`) or the effect. */
  function RoleName(synth: bool): string {
    if synth then "JackAss" else "JackAssFX"
  }

  /** The C string held in a character buffer: everything before its first
      NUL. */
  function CString(buf: seq<char>): (s: seq<char>)
    ensures |s| <= |buf| && s == buf[..|s|]
    ensures '\0' !in s
    ensures |s| < |buf| ==> buf[|s|] == '\0'
  {
    if buf == [] || buf[0] == '\0' then [] else [buf[0]] + CString(buf[1..])
  }

  /** The name the constructor opens the shared client under. `hostOk` is the
      result of `getHostProductString` and `hostBuf` the buffer it filled. */
  function ClientName(synth: bool, hostOk: bool, hostBuf: seq<char>): string {
    var host := CString(hostBuf);
    if hostOk && host != [] then RoleName(synth) + "-" + host[..Min(|host|, HostNameLimit)]
    else RoleName(synth)
  }

  /** The host string as it ends up in the client name. */
  function TruncatedHost(hostBuf: seq<char>): string {
    var host := CString(hostBuf);
    host[..Min(|host|, HostNameLimit)]
  }

  /** The name is a C string that fits the 256-character buffer with its NUL,
      and starts with the role name. */
  lemma ClientNameFits(synth: bool, hostOk: bool, hostBuf: seq<char>)
    ensures |ClientName(synth, hostOk, hostBuf)| < NameBufferSize
    ensures '\0' !in ClientName(synth, hostOk, hostBuf)
    ensures ClientName(synth, hostOk, hostBuf)[..|RoleName(synth)|] == RoleName(synth)
  {
    var host := CString(hostBuf);
    if hostOk && host != [] {
      var name := ClientName(synth, hostOk, hostBuf);
      assert name == RoleName(synth) + "-" + TruncatedHost(hostBuf);
      forall i | 0 <= i < |name|
        ensures name[i] != '\0'
      {
        if i > |RoleName(synth)| {
          assert name[i] == host[i - |RoleName(synth)| - 1];
        }
      }
    }
  }

  /** Two hosts give the same client name exactly when the parts of their
      product strings that survive the truncation agree; the fallback name
      never equals a name derived from a host. */
  lemma ClientNameDeterminesHost(synth: bool, buf1: seq<char>, buf2: seq<char>)
    requires CString(buf1) != [] && CString(buf2) != []
    ensures ClientName(synth, true, buf1) == ClientName(synth, true, buf2) <==>
            TruncatedHost(buf1) == TruncatedHost(buf2)
    ensures ClientName(synth, true, buf1) != RoleName(synth)
  {
    var p := RoleName(synth) + "-";
    var n1, n2 := ClientName(synth, true, buf1), ClientName(synth, true, buf2);
    assert n1 == p + TruncatedHost(buf1) && n2 == p + TruncatedHost(buf2);
    if n1 == n2 {
      assert n1[|p|..] == TruncatedHost(buf1);
      assert n2[|p|..] == TruncatedHost(buf2);
    }
  }

  /** The instrument and the effect never open clients of the same name. */
  lemma RoleNamesDisjoint(hostOk1: bool, buf1: seq<char>, hostOk2: bool, buf2: seq<char>)
    ensures ClientName(true, hostOk1, buf1) != ClientName(false, hostOk2, buf2)
  {
    var a, b := ClientName(true, hostOk1, buf1), ClientName(false, hostOk2, buf2);
    ClientNameFits(true, hostOk1, buf1);
    ClientNameFits(false, hostOk2, buf2);
    if |a| > 7 && |b| > 7 {
      assert a[7] == '-' && b[7] == 'F';
    }
  }
}

=== FILE: option.dfy ===
/** The optional value used for nullable handles and pointers. */
module Wrappers {

  datatype Option<+T> = None | Some(value: T)
}

=== FILE: params.dfy ===
/**
  The parameter table of the JackAss controller: which MIDI controller each
  host parameter drives, the name the host shows for it, and the Control
  Change events that setting or resending a parameter produces.
*/
module Params {
  import opened Midi
  import opened Wrappers

  /** `kParamMap`: parameter index to MIDI controller number. */
  const ParamMap: seq<Byte> :=
    [0x01, 0x02, 0x03, 0x04, 0x05, 0x07, 0x08, 0x09, 0x0A, 0x0B, 0x0C, 0x0D, 0x0E, 0x0F] +
    [0x10, 0x11, 0x12, 0x13, 0x14, 0x15, 0x16, 0x17, 0x18, 0x19, 0x1A, 0x1B, 0x1C, 0x1D, 0x1E, 0x1F] +
    [0x46, 0x47, 0x48, 0x49, 0x4A, 0x4B, 0x4C, 0x4D, 0x4E, 0x4F] +
    [0x50, 0x51, 0x52, 0x53, 0x54, 0x5B, 0x5C, 0x5D, 0x5E, 0x5F]

  /** `kParamCount`, the number of entries of the table. */
  const ParamCount: nat := |ParamMap|

  const ParamVolume: nat := 5
  const ParamBalance: nat := 6
  const ParamPan: nat := 8

  /** `kMaxParamLen` less the terminating NUL: the longest name that
      `strncpy(text, name, 19)` still terminates. */
  const MaxParamNameLength: nat := 18

  /** Controllers 0x07, 0x08 and 0x0A of the controller-number table (Table III)
      of the MIDI 1.0 Detailed Specification: Volume, Balance and Pan. */
  const VolumeController: Byte := 0x07
  const BalanceController: Byte := 0x08
  const PanController: Byte := 0x0A

  /** The Control Change event `setParameter(index, value)` submits. */
  function ParamEvent(index: nat, value: real): MidiData
    requires index < ParamCount
  {
    ControlChange(ParamMap[index], CcValue(value))
  }

  /** The events the resend block of `processReplacing` submits, in order. */
  function ResendEvents(params: seq<real>): seq<MidiData>
    requires |params| == ParamCount
  {
    seq(ParamCount, i requires 0 <= i < ParamCount => ParamEvent(i, params[i]))
  }

  /** The `getParameterName` switch on the controller number; `None` is its
      default branch, which defers to the plugin base class. */
  function ControllerName(cc: Byte): Option<string> {
    if cc < 0x10 then
      match cc
      case 0x01 => Some("0x01 Modulation")
      case 0x02 => Some("0x02 Breath")
      case 0x03 => Some("0x03 (Undefined)")
      case 0x04 => Some("0x04 Foot")
      case 0x05 => Some("0x05 Portamento")
      case 0x07 => Some("0x07 Volume")
      case 0x08 => Some("0x08 Balance")
      case 0x09 => Some("0x09 (Undefined)")
      case 0x0A => Some("0x0A Pan")
      case 0x0B => Some("0x0B Expression")
      case 0x0C => Some("0x0C FX Control 1")
      case 0x0D => Some("0x0D FX Control 2")
      case 0x0E => Some("0x0E (Undefined)")
      case 0x0F => Some("0x0F (Undefined)")
      case _ => None
    else if cc < 0x20 then
      match cc
      case 0x10 => Some("0x10 Gen Purpose 1")
      case 0x11 => Some("0x11 Gen Purpose 2")
      case 0x12 => Some("0x12 Gen Purpose 3")
      case 0x13 => Some("0x13 Gen Purpose 4")
      case 0x14 => Some("0x14 (Undefined)")
      case 0x15 => Some("0x15 (Undefined)")
      case 0x16 => Some("0x16 (Undefined)")
      case 0x17 => Some("0x17 (Undefined)")
      case 0x18 => Some("0x18 (Undefined)")
      case 0x19 => Some("0x19 (Undefined)")
      case 0x1A => Some("0x1A (Undefined)")
      case 0x1B => Some("0x1B (Undefined)")
      case 0x1C => Some("0x1C (Undefined)")
      case 0x1D => Some("0x1D (Undefined)")
      case 0x1E => Some("0x1E (Undefined)")
      case 0x1F => Some("0x1F (Undefined)")
      case _ => None
    else if cc < 0x50 then
      match cc
      case 0x46 => Some("0x46 Control 1")
      case 0x47 => Some("0x47 Control 2")
      case 0x48 => Some("0x48 Control 3")
      case 0x49 => Some("0x49 Control 4")
      case 0x4A => Some("0x4A Control 5")
      case 0x4B => Some("0x4B Control 6")
      case 0x4C => Some("0x4C Control 7")
      case 0x4D => Some("0x4D Control 8")
      case 0x4E => Some("0x4E Control 9")
      case 0x4F => Some("0x4F Control 10")
      case _ => None
    else
      match cc
      case 0x50 => Some("0x50 Gen Purpose 5")
      case 0x51 => Some("0x51 Gen Purpose 6")
      case 0x52 => Some("0x52 Gen Purpose 7")
      case 0x53 => Some("0x53 Gen Purpose 8")
      case 0x54 => Some("0x54 Portamento")
      case 0x5B => Some("0x5B FX 1 Depth")
      case 0x5C => Some("0x5C FX 2 Depth")
      case 0x5D => Some("0x5D FX 3 Depth")
      case 0x5E => Some("0x5E FX 4 Depth")
      case 0x5F => Some("0x5F FX 5 Depth")
      case _ => None
  }

  /** `getParameterName(index)`; `None` where the base class answers. */
  function ParameterName(index: int): Option<string> {
    if index < 0 || index >= ParamCount then None else ControllerName(ParamMap[index])
  }

  /** Upper-case hexadecimal digit. */
  function HexDigit(d: nat): char
    requires d < 16
  {
    if d < 10 then ('0' as int + d) as char else ('A' as int + d - 10) as char
  }

  /** Two upper-case hexadecimal digits of a byte. */
  function Hex2(b: Byte): string {
    [HexDigit(b / 16), HexDigit(b % 16)]
  }

  /** Value of an upper-case hexadecimal digit, if it is one. */
  function HexValue(c: char): Option<nat> {
    if '0' <= c <= '9' then Some(c as int - '0' as int)
    else if 'A' <= c <= 'F' then Some(c as int - 'A' as int + 10)
    else None
  }

  /** Value of a two-digit upper-case hexadecimal string. */
  function ParseHex2(s: string): Option<Byte> {
    if |s| != 2 then None
    else match (HexValue(s[0]), HexValue(s[1]))
      case (Some(h), Some(l)) => Some(h * 16 + l)
      case _ => None
  }

  /** The shape every name of the switch has. */
  predicate WellFormedName(cc: Byte, name: string) {
    && 5 <= |name| <= MaxParamNameLength
    && name[0] == '0' && name[1] == 'x'
    && name[2] == HexDigit(cc / 16) && name[3] == HexDigit(cc % 16)
    && name[4] == ' '
  }

  // ---------------------------------------------------------------------
  // Properties of the table

  /** Sortedness from neighbouring pairs. */
  lemma {:induction false} AdjacentIncreasing(s: seq<Byte>, i: nat, j: nat)
    requires forall k :: 0 <= k < |s| - 1 ==> s[k] < s[k + 1]
    requires i < j < |s|
    ensures s[i] < s[j]
    decreases j - i
  {
    if i + 1 < j {
      AdjacentIncreasing(s, i + 1, j);
    }
  }

  /** One entry of the table against its successor. */
  lemma ParamMapAt(k: nat)
    requires k < ParamCount
    ensures ParamMap[k] < 0x80
    ensures k + 1 < ParamCount ==> ParamMap[k] < ParamMap[k + 1]
  {
    match k
    case 0 =>
    case 1 =>
    case 2 =>
    case 3 =>
    case 4 =>
    case 5 =>
    case 6 =>
    case 7 =>
    case 8 =>
    case 9 =>
    case 10 =>
    case 11 =>
    case 12 =>
    case 13 =>
    case 14 =>
    case 15 =>
    case 16 =>
    case 17 =>
    case 18 =>
    case 19 =>
    case 20 =>
    case 21 =>
    case 22 =>
    case 23 =>
    case 24 =>
    case 25 =>
    case 26 =>
    case 27 =>
    case 28 =>
    case 29 =>
    case 30 =>
    case 31 =>
    case 32 =>
    case 33 =>
    case 34 =>
    case 35 =>
    case 36 =>
    case 37 =>
    case 38 =>
    case 39 =>
    case 40 =>
    case 41 =>
    case 42 =>
    case 43 =>
    case 44 =>
    case 45 =>
    case 46 =>
    case 47 =>
    case 48 =>
    case 49 =>
  }

  /** The table has 50 strictly increasing entries below 0x80 (each a valid
      7-bit controller number, no two parameters on the same controller) and
      puts Volume, Balance and Pan at indices 5, 6 and 8. */
  lemma ParamMapShape()
    ensures ParamCount == 50
    ensures forall i :: 0 <= i < ParamCount ==> ParamMap[i] < 0x80
    ensures forall i, j :: 0 <= i < j < ParamCount ==> ParamMap[i] < ParamMap[j]
    ensures ParamMap[ParamVolume] == VolumeController
    ensures ParamMap[ParamBalance] == BalanceController
    ensures ParamMap[ParamPan] == PanController
  {
    forall k | 0 <= k < ParamCount
      ensures ParamMap[k] < 0x80 && (k + 1 < ParamCount ==> ParamMap[k] < ParamMap[k + 1])
    {
      ParamMapAt(k);
    }
    forall i, j | 0 <= i < j < ParamCount
      ensures ParamMap[i] < ParamMap[j]
    {
      AdjacentIncreasing(ParamMap, i, j);
    }
  }

  /** Round trip of the hexadecimal rendering. */
  lemma Hex2RoundTrip(b: Byte)
    ensures |Hex2(b)| == 2 && ParseHex2(Hex2(b)) == Some(b)
  {
    var h, l := b / 16, b % 16;
    assert HexValue(HexDigit(h)) == Some(h);
    assert HexValue(HexDigit(l)) == Some(l);
  }

  /** Every name of the switch starts with `0x`, the controller's two
      upper-case hex digits and a space, and fits the 18 characters `strncpy`
      terminates. */
  lemma ControllerNameShape(cc: Byte)
    ensures ControllerName(cc).Some? ==> WellFormedName(cc, ControllerName(cc).value)
  {
    if cc < 0x08 {
      ControllerNameShape01To07(cc);
    } else if cc < 0x10 {
      ControllerNameShape08To0F(cc);
    } else if cc < 0x18 {
      ControllerNameShape10To17(cc);
    } else if cc < 0x20 {
      ControllerNameShape18To1F(cc);
    } else if cc < 0x4B {
      ControllerNameShape46To4A(cc);
    } else if cc < 0x50 {
      ControllerNameShape4BTo4F(cc);
    } else if cc < 0x55 {
      ControllerNameShape50To54(cc);
    } else {
      ControllerNameShape5BTo5F(cc);
    }
  }

  lemma ControllerNameShape01To07(cc: Byte)
    requires cc < 0x08
    ensures ControllerName(cc).Some? ==> WellFormedName(cc, ControllerName(cc).value)
  {
    match cc
    case 0x01 =>
    case 0x02 =>
    case 0x03 =>
    case 0x04 =>
    case 0x05 =>
    case 0x07 =>
    case _ =>
  }

  lemma ControllerNameShape08To0F(cc: Byte)
    requires 0x08 <= cc < 0x10
    ensures ControllerName(cc).Some? ==> WellFormedName(cc, ControllerName(cc).value)
  {
    match cc
    case 0x08 =>
    case 0x09 =>
    case 0x0A =>
    case 0x0B =>
    case 0x0C =>
    case 0x0D =>
    case 0x0E =>
    case 0x0F =>
    case _ =>
  }

  lemma ControllerNameShape10To17(cc: Byte)
    requires 0x10 <= cc < 0x18
    ensures ControllerName(cc).Some? ==> WellFormedName(cc, ControllerName(cc).value)
  {
    match cc
    case 0x10 =>
    case 0x11 =>
    case 0x12 =>
    case 0x13 =>
    case 0x14 =>
    case 0x15 =>
    case 0x16 =>
    case 0x17 =>
    case _ =>
  }

  lemma ControllerNameShape18To1F(cc: Byte)
    requires 0x18 <= cc < 0x20
    ensures ControllerName(cc).Some? ==> WellFormedName(cc, ControllerName(cc).value)
  {
    match cc
    case 0x18 =>
    case 0x19 =>
    case 0x1A =>
    case 0x1B =>
    case 0x1C =>
    case 0x1D =>
    case 0x1E =>
    case 0x1F =>
    case _ =>
  }

  lemma ControllerNameShape46To4A(cc: Byte)
    requires 0x20 <= cc < 0x4B
    ensures ControllerName(cc).Some? ==> WellFormedName(cc, ControllerName(cc).value)
  {
    match cc
    case 0x46 =>
    case 0x47 =>
    case 0x48 =>
    case 0x49 =>
    case 0x4A =>
    case _ =>
  }

  lemma ControllerNameShape4BTo4F(cc: Byte)
    requires 0x4B <= cc < 0x50
    ensures ControllerName(cc).Some? ==> WellFormedName(cc, ControllerName(cc).value)
  {
    match cc
    case 0x4B =>
    case 0x4C =>
    case 0x4D =>
    case 0x4E =>
    case 0x4F =>
    case _ =>
  }

  lemma ControllerNameShape50To54(cc: Byte)
    requires 0x50 <= cc < 0x55
    ensures ControllerName(cc).Some? ==> WellFormedName(cc, ControllerName(cc).value)
  {
    match cc
    case 0x50 =>
    case 0x51 =>
    case 0x52 =>
    case 0x53 =>
    case 0x54 =>
    case _ =>
  }

  lemma ControllerNameShape5BTo5F(cc: Byte)
    requires 0x55 <= cc
    ensures ControllerName(cc).Some? ==> WellFormedName(cc, ControllerName(cc).value)
  {
    match cc
    case 0x5B =>
    case 0x5C =>
    case 0x5D =>
    case 0x5E =>
    case 0x5F =>
    case _ =>
  }

  /** Every entry of the table reaches a case of the switch, so the default
      branch is unreachable for a valid index, and the name it gets is well
      formed. */
  lemma ControllerNameAt(k: nat)
    requires k < ParamCount
    ensures ControllerName(ParamMap[k]).Some?
    ensures WellFormedName(ParamMap[k], ControllerName(ParamMap[k]).value)
  {
    if k < 25 {
      ControllerNameDefinedBelow25(k);
    } else {
      ControllerNameDefinedFrom25(k);
    }
    ControllerNameShape(ParamMap[k]);
  }

  lemma ControllerNameDefinedBelow25(k: nat)
    requires k < 25
    ensures ControllerName(ParamMap[k]).Some?
  {
    match k
    case 0 =>
    case 1 =>
    case 2 =>
    case 3 =>
    case 4 =>
    case 5 =>
    case 6 =>
    case 7 =>
    case 8 =>
    case 9 =>
    case 10 =>
    case 11 =>
    case 12 =>
    case 13 =>
    case 14 =>
    case 15 =>
    case 16 =>
    case 17 =>
    case 18 =>
    case 19 =>
    case 20 =>
    case 21 =>
    case 22 =>
    case 23 =>
    case 24 =>
  }

  lemma ControllerNameDefinedFrom25(k: nat)
    requires 25 <= k < ParamCount
    ensures ControllerName(ParamMap[k]).Some?
  {
    match k
    case 25 =>
    case 26 =>
    case 27 =>
    case 28 =>
    case 29 =>
    case 30 =>
    case 31 =>
    case 32 =>
    case 33 =>
    case 34 =>
    case 35 =>
    case 36 =>
    case 37 =>
    case 38 =>
    case 39 =>
    case 40 =>
    case 41 =>
    case 42 =>
    case 43 =>
    case 44 =>
    case 45 =>
    case 46 =>
    case 47 =>
    case 48 =>
    case 49 =>
  }

  /** The switch names exactly the controllers of the table: every valid index
      reaches a case (the default branch is unreachable for it) and no case
      names a controller outside the table. */
  lemma ControllerNameCoversTable(cc: Byte)
    ensures ControllerName(cc).Some? <==> cc in ParamMap
  {
    if cc in ParamMap {
      var k :| 0 <= k < |ParamMap| && ParamMap[k] == cc;
      ControllerNameAt(k);
    }
  }

  /** `getParameterName` for a valid index gives a well-formed name from which
      the controller number can be read back; an invalid index defers to the
      base class. */
  lemma ParameterNameSound(index: int)
    ensures ParameterName(index).Some? <==> 0 <= index < ParamCount
    ensures 0 <= index < ParamCount ==>
              WellFormedName(ParamMap[index], ParameterName(index).value) &&
              ParseHex2(ParameterName(index).value[2..4]) == Some(ParamMap[index])
  {
    if 0 <= index < ParamCount {
      var cc := ParamMap[index];
      ControllerNameAt(index);
      Hex2RoundTrip(cc);
      var name := ParameterName(index).value;
      assert name[2..4] == Hex2(cc);
    }
  }

  /** The resend batch holds one Control Change per parameter, in index
      order, carrying the parameter's controller and quantised value. */
  lemma ResendEventsShape(params: seq<real>)
    requires |params| == ParamCount
    ensures |ResendEvents(params)| == ParamCount
    ensures forall i :: 0 <= i < ParamCount ==>
              var e := ResendEvents(params)[i];
              !IsEmpty(e) && e.data == [ControlChangeStatus, ParamMap[i], CcValue(params[i]), 0] &&
              e.size == 3 && e.time == 0
  {
  }

  /** Setting Volume to 1.0 makes the resend batch carry controller 0x07 with
      value 127 at position 5. */
  lemma ResendFullVolume(params: seq<real>)
    requires |params| == ParamCount
    ensures ResendEvents(params[ParamVolume := 1.0])[ParamVolume] == ControlChange(VolumeController, 127)
  {
    CcValueRoundTrip(127);
    assert 127 as real / 127.0 == 1.0;
  }
}

=== FILE: plugin.dfy ===
/**
  The `JackAss` plugin object: its parameter buffer, the instance it owns,
  and the operations the host calls on it (construction, destruction,
  parameter access, the resend in `processReplacing` and the forwarding in
  `processEvents`).
*/
module Plugin {
  import opened Midi
  import opened Wrappers
  import opened SlotStore
  import opened Params
  import opened Naming
  import opened Graph

  /** The initial value of parameter `i`: Volume 100/127, Balance and Pan
      centred, every other controller zero. */
  function DefaultParam(i: nat): real {
    if i == ParamVolume then 100.0 / 127.0
    else if i == ParamBalance || i == ParamPan then 0.5
    else 0.0
  }

  /** The whole parameter buffer after construction. */
  function DefaultParams(): (p: seq<real>)
    ensures |p| == ParamCount
  {
    seq(ParamCount, i requires 0 <= i => DefaultParam(i))
  }

  /** Initially Volume quantises to 100, Balance and Pan to the centre 63,
      and every other controller to 0. */
  lemma DefaultParamsSent()
    ensures forall i :: 0 <= i < ParamCount ==>
              CcValue(DefaultParams()[i]) ==
                if i == ParamVolume then 100 else if i == ParamBalance || i == ParamPan then 63 else 0
  {
    CcValueRoundTrip(100);
    assert 100 as real / 127.0 == 100.0 / 127.0;
    CcValueRoundTrip(0);
    CcValueInRange(0.5);
    assert (0.5 * 127.0).Floor == 63;
    forall i | 0 <= i < ParamCount
      ensures CcValue(DefaultParams()[i]) ==
                if i == ParamVolume then 100 else if i == ParamBalance || i == ParamPan then 63 else 0
    {
      assert DefaultParams()[i] == DefaultParam(i);
    }
  }

  // ---------------------------------------------------------------------
  // Host events

  /** An entry of the host's event list: a MIDI event with its three data
      bytes (the fourth is ignored) and frame offset, or an event of another
      type (`type != kVstMidiType`). */
  datatype VstEvent =
    | MidiEvent(midiData: Data4, deltaFrames: Int32)
    | OtherEvent

  /** What forwarding stores for one host event: nothing for a non-MIDI
      event, a three-byte record at the event's frame offset otherwise. */
  function ForwardOne(ev: VstEvent): (r: seq<MidiData>)
    ensures ev.OtherEvent? <==> r == []
    ensures ev.MidiEvent? ==>
              && |r| == 1 && r[0].size == 3 && r[0].time == ev.deltaFrames
              && r[0].data[..3] == ev.midiData[..3] && r[0].data[3] == 0
  {
    match ev
    case OtherEvent => []
    case MidiEvent(d, t) => [MidiData([d[0], d[1], d[2], 0], 3, t)]
  }

  /** The records `processEvents` stores for a list of event pointers, `None`
      standing for a null pointer. */
  function Forwarded(events: seq<Option<VstEvent>>): seq<MidiData> {
    if events == [] then []
    else match events[0]
      case None => []
      case Some(ev) => ForwardOne(ev) + Forwarded(events[1..])
  }

  /** Forwarding handles the list one event at a time from the front. */
  lemma {:induction false} ForwardedSnoc(events: seq<Option<VstEvent>>, ev: VstEvent)
    requires forall i :: 0 <= i < |events| ==> events[i].Some?
    ensures Forwarded(events + [Some(ev)]) == Forwarded(events) + ForwardOne(ev)
    decreases |events|
  {
    if events == [] {
      assert Forwarded([Some(ev)]) == ForwardOne(ev) + Forwarded([]);
    } else {
      var tail := events[1..];
      assert (events + [Some(ev)])[1..] == tail + [Some(ev)];
      ForwardedSnoc(tail, ev);
    }
  }

  /** A null entry ends the list: nothing after it is forwarded. */
  lemma {:induction false} ForwardedStopsAtNull(events: seq<Option<VstEvent>>, rest: seq<Option<VstEvent>>)
    requires forall i :: 0 <= i < |events| ==> events[i].Some?
    ensures Forwarded(events + [None] + rest) == Forwarded(events)
    decreases |events|
  {
    if events != [] {
      var tail := events[1..];
      assert (events + [None] + rest)[1..] == tail + [None] + rest;
      ForwardedStopsAtNull(tail, rest);
    }
  }

  /** Every forwarded record is a three-byte event at its host frame offset,
      taken from a MIDI event of the list; non-MIDI events contribute
      nothing, so there are at most as many records as events. */
  lemma {:induction false} ForwardedShape(events: seq<Option<VstEvent>>)
    ensures |Forwarded(events)| <= |events|
    ensures forall r :: r in Forwarded(events) ==>
              r.size == 3 && r.data[3] == 0 &&
              exists i :: 0 <= i < |events| && events[i].Some? && events[i].value.MidiEvent? &&
                          r.time == events[i].value.deltaFrames &&
                          r.data[..3] == events[i].value.midiData[..3]
    decreases |events|
  {
    if events != [] && events[0].Some? {
      var tail := events[1..];
      ForwardedShape(tail);
      forall r | r in Forwarded(events)
        ensures r.size == 3 && r.data[3] == 0
        ensures exists i :: 0 <= i < |events| && events[i].Some? && events[i].value.MidiEvent? &&
                            r.time == events[i].value.deltaFrames &&
                            r.data[..3] == events[i].value.midiData[..3]
      {
        if r in Forwarded(tail) {
          var j :| 0 <= j < |tail| && tail[j].Some? && tail[j].value.MidiEvent? &&
                   r.time == tail[j].value.deltaFrames && r.data[..3] == tail[j].value.midiData[..3];
          assert events[j + 1] == tail[j];
        } else {
          assert r in ForwardOne(events[0].value);
          assert r.data[..3] == events[0].value.midiData[..3];
        }
      }
    }
  }

  /** Stored events are appended one after another: `PutAll` on a list with
      one more event is one more `Put`. */
  lemma PutAllSnoc(s: seq<MidiData>, es: seq<MidiData>, e: MidiData)
    ensures PutAll(s, es + [e]) == Put(PutAll(s, es), e)
  {
    assert (es + [e])[..|es|] == es;
  }

  /** One step of the forwarding loop: the store after the first `i + 1`
      events is the store after `i` events with the `i`-th event's record, if
      any, put. */
  lemma ForwardStep(s: seq<MidiData>, evs: seq<Option<VstEvent>>, i: nat)
    requires i < |evs| && evs[i].Some?
    requires forall j :: 0 <= j < i ==> evs[j].Some?
    ensures forall j :: 0 <= j <= i ==> evs[j].Some?
    ensures PutAll(s, Forwarded(evs[..i + 1])) ==
              match evs[i].value
              case OtherEvent => PutAll(s, Forwarded(evs[..i]))
              case MidiEvent(d, t) => Put(PutAll(s, Forwarded(evs[..i])), MidiData([d[0], d[1], d[2], 0], 3, t))
  {
    var ev := evs[i].value;
    assert evs[..i + 1] == evs[..i] + [Some(ev)];
    ForwardedSnoc(evs[..i], ev);
    var es := Forwarded(evs[..i]);
    if ev.OtherEvent? {
      assert es + ForwardOne(ev) == es;
    } else {
      PutAllSnoc(s, es, ForwardOne(ev)[0]);
    }
  }

  /** One step of the resend loop. */
  lemma ResendStep(s: seq<MidiData>, params: seq<real>, i: nat)
    requires |params| == ParamCount && i < ParamCount
    ensures PutAll(s, ResendEvents(params)[..i + 1]) ==
              Put(PutAll(s, ResendEvents(params)[..i]),
                  MidiData([ControlChangeStatus, ParamMap[i], CcValue(params[i]), 0], 3, 0))
  {
    var events := ResendEvents(params);
    assert events[..i + 1] == events[..i] + [events[i]];
    PutAllSnoc(s, events[..i], events[i]);
  }

  // ---------------------------------------------------------------------
  // The plugin object

  /** One plugin object; `synth` selects the instrument build
      (`JACKASS_SYNTH`) or the effect build. */
  class JackAss {
    const synth: bool
    const params: array<real>
    var instance: Instance?

    /** The slot array of the owned instance, if any. */
    function InstanceSlots(): set<object>
      reads this
    {
      if instance == null then {} else {instance.slots}
    }

    /** The owned instance, if any. */
    function InstanceObjects(): set<object>
      reads this
    {
      if instance == null then {} else {instance}
    }

    ghost predicate Valid()
      reads this, params, InstanceSlots()
    {
      params.Length == ParamCount && (instance != null ==> ValidStore(instance.slots))
    }

    /** `getParameter`: the stored value, or zero for an index out of range. */
    function GetParameter(index: int): real
      reads this, params
      requires params.Length == ParamCount
    {
      if index < 0 || index >= ParamCount then 0.0 else params[index]
    }

    /** The constructor. `hasAudioMaster` says whether the host passed a
        callback, `hostOk`/`hostBuf` are the result of `getHostProductString`,
        and `openOk`/`registerOk` whether opening the client and registering
        the port succeed. */
    constructor (reg: Registry, synth: bool, hasAudioMaster: bool, hostOk: bool, hostBuf: seq<char>,
                 openOk: bool, registerOk: bool)
      requires reg.Valid()
      modifies reg
      ensures Valid() && reg.Valid() && fresh(params)
      ensures this.synth == synth && params[..] == DefaultParams()
      ensures reg.needResend == old(reg.needResend)
      ensures reg.client ==
                if hasAudioMaster && old(reg.client).None? && openOk
                then Some(Client(ClientName(synth, hostOk, hostBuf)))
                else old(reg.client)
      ensures instance != null <==> hasAudioMaster && (old(reg.client).Some? || openOk) && registerOk
      ensures instance == null ==> reg.instances == old(reg.instances)
      ensures instance != null ==>
                && fresh(instance) && fresh(instance.slots)
                && reg.instances == old(reg.instances) + [instance]
                && instance.port == Some(Port(PortName(|old(reg.instances)| + 1)))
                && instance.slots[..] == FreshStore()
    {
      this.synth := synth;
      params := new real[ParamCount](DefaultParam);
      instance := null;
      new;
      assert forall i :: 0 <= i < ParamCount ==> params[i] == DefaultParam(i);
      assert params[..] == DefaultParams();
      if !hasAudioMaster {
        return;
      }
      if reg.client.None? {
        if !openOk {
          return;
        }
        reg.client := Some(Client(ClientName(synth, hostOk, hostBuf)));
      }
      var name := PortName(|reg.instances| + 1);
      if registerOk {
        var inst := new Instance(Port(name));
        instance := inst;
        reg.instances := reg.instances + [inst];
        reg.Repr := reg.Repr + {inst.slots};
      }
    }

    /** The destructor. The returned port is the one unregistered from the
        client, if any. */
    method Destroy(reg: Registry) returns (unregistered: Option<Port>)
      requires reg.Valid()
      requires instance != null ==> instance in reg.instances
      modifies this, reg, InstanceObjects()
      ensures instance == null && reg.Valid()
      ensures reg.needResend == old(reg.needResend)
      ensures old(instance) == null ==> reg.instances == old(reg.instances)
      ensures old(instance) != null ==> reg.instances == RemoveAll(old(reg.instances), old(instance) as Instance)
      ensures |reg.instances| == if old(instance) == null then |old(reg.instances)| else |old(reg.instances)| - 1
      ensures reg.client == if reg.instances == [] then None else old(reg.client)
      ensures unregistered == if old(instance) != null && old(reg.client).Some? then old(instance.port) else None
      ensures old(instance) != null ==> old(instance).port == None
    {
      unregistered := None;
      if instance != null {
        var mine: Instance := instance;
        var rest := RemoveAll(reg.instances, mine);
        RemoveInstance(reg.instances, mine);
        forall inst | inst in rest
          ensures inst.slots in reg.Repr && ValidStore(inst.slots)
        {
          var k :| 0 <= k < |rest| && rest[k] == inst;
          RemoveAllElement(reg.instances, mine, k);
        }
        reg.instances := rest;
        unregistered := mine.Close(reg.client.Some?);
        instance := null;
      }
      if reg.client.Some? && reg.instances == [] {
        reg.client := None;
      }
    }

    /** `setParameter`: store a changed value of a valid parameter and, when an
        instance exists, queue its Control Change. */
    method SetParameter(index: int, value: real)
      requires Valid()
      modifies params, InstanceSlots()
      ensures Valid()
      ensures !(0 <= index < ParamCount) ==> params[..] == old(params[..])
      ensures 0 <= index < ParamCount ==> params[..] == old(params[..])[index := value]
      ensures GetParameter(index) == if 0 <= index < ParamCount then value else 0.0
      ensures instance != null ==>
                instance.slots[..] ==
                  if 0 <= index < ParamCount && old(params[index]) != value
                  then Put(old(instance.slots[..]), ParamEvent(index, value))
                  else old(instance.slots[..])
    {
      if index < 0 || index >= ParamCount {
        return;
      }
      if params[index] != value {
        params[index] := value;
        if instance != null {
          instance.PutEvent3(ControlChangeStatus, ParamMap[index], CcValue(value), 3, 0);
        }
      }
    }

    /** The resend block of `processReplacing`: when the process-wide flag is
        set and an instance exists, queue one Control Change per parameter in
        index order and clear the flag. */
    method ProcessReplacing(reg: Registry)
      requires Valid() && reg.Valid()
      requires instance != null ==> instance in reg.instances
      modifies reg`needResend, InstanceSlots()
      ensures Valid() && reg.Valid()
      ensures old(reg.needResend) && instance != null ==>
                !reg.needResend && instance.slots[..] == PutAll(old(instance.slots[..]), ResendEvents(params[..]))
      ensures !(old(reg.needResend) && instance != null) ==> reg.needResend == old(reg.needResend)
      ensures !old(reg.needResend) && instance != null ==> instance.slots[..] == old(instance.slots[..])
    {
      if reg.needResend && instance != null {
        ResendParameters(instance);
        reg.needResend := false;
      }
      OthersUnchanged(reg);
    }

    /** The loop of the resend block: queue one Control Change per parameter,
        in index order, into `inst`. */
    method ResendParameters(inst: Instance)
      requires inst.Valid() && params.Length == ParamCount
      modifies inst.slots
      ensures inst.Valid()
      ensures inst.slots[..] == PutAll(old(inst.slots[..]), ResendEvents(params[..]))
    {
      ghost var s0 := inst.slots[..];
      ghost var events := ResendEvents(params[..]);
      for i := 0 to ParamCount
        invariant inst.Valid()
        invariant inst.slots[..] == PutAll(s0, events[..i])
      {
        ResendStep(s0, params[..], i);
        inst.PutEvent3(ControlChangeStatus, ParamMap[i], CcValue(params[i]), 3, 0);
      }
      assert events[..ParamCount] == events;
    }

    /** The owned instance's slots are the only slots of the list this object
        may change, so the list's invariant survives a change of them. */
    twostate lemma OthersUnchanged(reg: Registry)
      requires old(reg.Valid()) && Valid()
      requires instance != null ==> instance in reg.instances
      requires reg.instances == old(reg.instances) && reg.client == old(reg.client) && reg.Repr == old(reg.Repr)
      requires forall inst :: inst in reg.instances && inst != instance ==> unchanged(inst.slots)
      ensures reg.Valid()
    {
    }

    /** `processEvents` of the instrument build: forward the host's MIDI events
        into the instance's store, stopping at the first null entry and
        skipping other event types. `events == None` is a null list. */
    method ProcessEvents(events: Option<seq<Option<VstEvent>>>) returns (r: int)
      requires Valid()
      modifies InstanceSlots()
      ensures Valid() && r == 0
      ensures instance != null ==>
                instance.slots[..] ==
                  if synth && events.Some? then PutAll(old(instance.slots[..]), Forwarded(events.value))
                  else old(instance.slots[..])
    {
      r := 0;
      if !synth || instance == null || events.None? {
        return;
      }
      ForwardEvents(instance, events.value);
    }

    /** The loop of `processEvents`: put the record of each MIDI event of
        `evs` into `inst`, in list order, up to the first null entry. */
    method ForwardEvents(inst: Instance, evs: seq<Option<VstEvent>>)
      requires inst.Valid()
      modifies inst.slots
      ensures inst.Valid()
      ensures inst.slots[..] == PutAll(old(inst.slots[..]), Forwarded(evs))
    {
      ghost var s0 := inst.slots[..];
      for i := 0 to |evs|
        invariant inst.Valid()
        invariant forall j :: 0 <= j < i ==> evs[j].Some?
        invariant inst.slots[..] == PutAll(s0, Forwarded(evs[..i]))
      {
        if evs[i].None? {
          ForwardedStopsAtNull(evs[..i], evs[i + 1..]);
          assert evs == evs[..i] + [None] + evs[i + 1..];
          return;
        }
        ForwardStep(s0, evs, i);
        match evs[i].value
        case OtherEvent =>
        case MidiEvent(d, t) =>
          inst.PutEvent3(d[0], d[1], d[2], 3, t);
      }
      assert evs[..|evs|] == evs;
    }
  }

  // ---------------------------------------------------------------------
  // Scenarios

  /** Three instrument plugins loaded into a fresh process share one client
      named after the host and get the ports `midi-out_01` to `midi-out_03`. */
  method PortNamesScenario(hostBuf: seq<char>) returns (client: Option<Client>, names: seq<string>)
    ensures client == Some(Client(ClientName(true, true, hostBuf)))
    ensures names == ["midi-out_01", "midi-out_02", "midi-out_03"]
  {
    FirstPortNames();
    var reg := new Registry();
    var p1 := new JackAss(reg, true, true, true, hostBuf, true, true);
    var n1 := p1.instance.port.value.name;
    assert n1 == "midi-out_01" && |reg.instances| == 1;
    var p2 := new JackAss(reg, true, true, true, hostBuf, true, true);
    var n2 := p2.instance.port.value.name;
    assert n2 == "midi-out_02" && |reg.instances| == 2;
    var p3 := new JackAss(reg, true, true, true, hostBuf, true, true);
    var n3 := p3.instance.port.value.name;
    assert n3 == "midi-out_03";
    names := [n1, n2, n3];
    client := reg.client;
  }

  /** Loading a plugin and unloading it again leaves the instance list as it
      was, and closes the client exactly when no other instance is left. */
  method LoadUnload(reg: Registry, hostBuf: seq<char>, openOk: bool, registerOk: bool)
    returns (unregistered: Option<Port>)
    requires reg.Valid()
    modifies reg
    ensures reg.Valid() && reg.instances == old(reg.instances)
    ensures reg.client.Some? ==> old(reg.client).Some? || openOk
    ensures reg.instances == [] ==> reg.client == None
    ensures old(reg.client).Some? && registerOk ==>
              unregistered == Some(Port(PortName(|old(reg.instances)| + 1)))
  {
    ghost var before := reg.instances;
    var p := new JackAss(reg, true, true, true, hostBuf, openOk, registerOk);
    ghost var added := p.instance;
    unregistered := p.Destroy(reg);
    if added != null {
      ghost var mine: Instance := added;
      RemoveAppended(before, mine);
    }
  }

  /** A connection made to one of the client's ports makes the next
      `processReplacing` of a plugin whose store is empty queue its whole
      parameter state: one Control Change per parameter, in index order. */
  method ResendScenario(reg: Registry, p: JackAss, ev: ConnectEvent, mine: nat -> bool)
    requires reg.Valid() && p.Valid() && p.instance != null && p.instance in reg.instances
    requires Pending(p.instance.slots[..]) == []
    requires Raises(ev, mine)
    modifies reg`needResend, p.InstanceSlots()
    ensures reg.Valid() && !reg.needResend
    ensures Pending(p.instance.slots[..]) == ResendEvents(p.params[..])
  {
    reg.ConnectCallback(ev, mine);
    RaiseResendIsLevel(old(reg.needResend), ev, mine);
    ghost var s0 := p.instance.slots[..];
    p.ProcessReplacing(reg);
    ResendEventsShape(p.params[..]);
    CapacityBound(s0, ResendEvents(p.params[..]));
  }
}

=== FILE: registry.dfy ===
/**
  The process-wide state JackAss shares between its plugin instances: the one
  client connection (`gJackClient`), the ordered list of live instances
  (`gInstances`) and the resend flag (`gNeedMidiResend`), with the two
  callbacks the client runs.
*/
module Graph {
  import opened Midi
  import opened Wrappers
  import opened SlotStore

  /** The shared client handle, known by the name it was opened under. */
  datatype Client = Client(name: string)

  /** A port-connection notification: the two port ids and `connect_`. */
  datatype ConnectEvent = ConnectEvent(a: nat, b: nat, connect: int)

  /** Whether a notification asks for a resend: a connection (not a
      disconnection) one of whose ends is a port of this client; `mine` answers
      `port_is_mine(port_by_id(id))`. */
  predicate Raises(ev: ConnectEvent, mine: nat -> bool) {
    ev.connect != 0 && (mine(ev.a) || mine(ev.b))
  }

  /** The resend flag after `jconnect_callback` handled `ev`. */
  function RaiseResend(flag: bool, ev: ConnectEvent, mine: nat -> bool): bool {
    if ev.connect == 0 then flag
    else if mine(ev.a) || mine(ev.b) then true
    else flag
  }

  /** The resend flag after a run of notifications. */
  function FlagAfter(flag: bool, evs: seq<ConnectEvent>, mine: nat -> bool): bool
    decreases |evs|
  {
    if evs == [] then flag else RaiseResend(FlagAfter(flag, evs[..|evs| - 1], mine), evs[|evs| - 1], mine)
  }

  /** The callback only ever sets the flag, sets it exactly for a connection
      touching one of this client's ports, and is idempotent: the flag is a
      level, not a count. */
  lemma RaiseResendIsLevel(flag: bool, ev: ConnectEvent, mine: nat -> bool)
    ensures RaiseResend(flag, ev, mine) == (flag || Raises(ev, mine))
    ensures RaiseResend(RaiseResend(flag, ev, mine), ev, mine) == RaiseResend(flag, ev, mine)
  {
  }

  /** After any run of notifications the flag is set exactly when it was set
      before or one of them was a connection of one of this client's ports:
      however many such connections arrive, one resend answers them all, and
      none is missed. */
  lemma {:induction false} FlagAfterEvents(flag: bool, evs: seq<ConnectEvent>, mine: nat -> bool)
    ensures FlagAfter(flag, evs, mine) <==> flag || exists i :: 0 <= i < |evs| && Raises(evs[i], mine)
    decreases |evs|
  {
    if evs != [] {
      var front := evs[..|evs| - 1];
      FlagAfterEvents(flag, front, mine);
      if exists i :: 0 <= i < |front| && Raises(front[i], mine) {
        var i :| 0 <= i < |front| && Raises(front[i], mine);
        assert evs[i] == front[i];
      }
      if exists i :: 0 <= i < |evs| && Raises(evs[i], mine) {
        var i :| 0 <= i < |evs| && Raises(evs[i], mine);
        if i < |front| {
          assert front[i] == evs[i];
        }
      }
    }
  }

  // ---------------------------------------------------------------------
  // The instance list

  /** `std::list::remove(x)`: every element equal to `x` goes, the others stay
      in order. */
  function RemoveAll<T(==)>(s: seq<T>, x: T): seq<T> {
    if s == [] then [] else (if s[0] == x then [] else [s[0]]) + RemoveAll(s[1..], x)
  }

  /** Removing the element just appended restores the list: a constructor
      followed by the destructor of the same plugin leaves `gInstances` as it
      was. */
  lemma {:induction false} RemoveAppended<T>(s: seq<T>, x: T)
    requires x !in s
    ensures RemoveAll(s + [x], x) == s
  {
    if s == [] {
      assert RemoveAll([x], x) == [] + RemoveAll([x][1..], x);
    } else {
      assert (s + [x])[1..] == s[1..] + [x];
      RemoveAppended(s[1..], x);
    }
  }

  /** Removing the first element of a list it does not repeat leaves the
      rest. */
  lemma RemoveHead<T>(x: T, s: seq<T>)
    requires x !in s
    ensures RemoveAll([x] + s, x) == s
  {
    assert ([x] + s)[1..] == s;
    RemoveAbsent(s, x);
  }

  /** No two listed instances share a slot array (so none is listed twice). */
  ghost predicate DistinctSlots(s: seq<Instance>) {
    forall i, j :: 0 <= i < j < |s| ==> s[i].slots != s[j].slots
  }

  lemma {:induction false} RemoveAbsent<T>(s: seq<T>, x: T)
    requires x !in s
    ensures RemoveAll(s, x) == s
  {
    if s != [] {
      RemoveAbsent(s[1..], x);
    }
  }

  /** The elements left are exactly those different from `x`. */
  lemma {:induction false} RemoveAllMembers<T>(s: seq<T>, x: T)
    ensures forall y :: y in RemoveAll(s, x) <==> y in s && y != x
  {
    if s != [] {
      RemoveAllMembers(s[1..], x);
    }
  }

  /** Each element left was in the list and differs from `x`. */
  lemma {:induction false} RemoveAllElement<T>(s: seq<T>, x: T, k: nat)
    requires k < |RemoveAll(s, x)|
    ensures RemoveAll(s, x)[k] in s && RemoveAll(s, x)[k] != x
  {
    var r := RemoveAll(s[1..], x);
    if s[0] != x && k == 0 {
      assert RemoveAll(s, x)[0] == s[0];
    } else {
      var k' := if s[0] == x then k else k - 1;
      RemoveAllElement(s[1..], x, k');
      assert RemoveAll(s, x)[k] == r[k'];
      assert r[k'] in s[1..];
    }
  }

  lemma DistinctSlotsTail(s: seq<Instance>)
    requires s != [] && DistinctSlots(s)
    ensures DistinctSlots(s[1..])
    ensures forall y :: y in s[1..] ==> s[0].slots != y.slots
  {
    var t := s[1..];
    forall i, j | 0 <= i < j < |t|
      ensures t[i].slots != t[j].slots
    {
      assert t[i] == s[i + 1] && t[j] == s[j + 1];
    }
    forall y | y in t
      ensures s[0].slots != y.slots
    {
      var k :| 0 <= k < |t| && t[k] == y;
      assert t[k] == s[k + 1];
    }
  }

  lemma DistinctSlotsCons(x: Instance, r: seq<Instance>)
    requires DistinctSlots(r)
    requires forall k :: 0 <= k < |r| ==> x.slots != r[k].slots
    ensures DistinctSlots([x] + r)
  {
    var u := [x] + r;
    forall i, j | 0 <= i < j < |u|
      ensures u[i].slots != u[j].slots
    {
      assert u[j] == r[j - 1];
      if i > 0 {
        assert u[i] == r[i - 1];
      }
    }
  }

  /** Removing an instance from a list without repeated slot arrays removes
      exactly that one element and keeps the others. */
  lemma {:induction false} RemoveInstance(s: seq<Instance>, x: Instance)
    requires DistinctSlots(s)
    ensures DistinctSlots(RemoveAll(s, x))
    ensures |RemoveAll(s, x)| == if x in s then |s| - 1 else |s|
  {
    if s != [] {
      var t := s[1..];
      DistinctSlotsTail(s);
      RemoveInstance(t, x);
      var r := RemoveAll(t, x);
      if s[0] == x {
        assert x !in t;
      } else {
        assert x in s <==> x in t;
        forall k | 0 <= k < |r|
          ensures s[0].slots != r[k].slots
        {
          RemoveAllElement(t, x, k);
        }
        DistinctSlotsCons(s[0], r);
      }
    }
  }

  // ---------------------------------------------------------------------
  // The process-wide state

  /** The globals of the process: `gJackClient`, `gInstances` and
      `gNeedMidiResend`. */
  class Registry {
    var client: Option<Client>
    var instances: seq<Instance>
    var needResend: bool
    /** The slot arrays of the instances listed so far. */
    ghost var Repr: set<object>

    /** A listed instance implies an open client; the listed instances own
        distinct slot arrays, each keeping the store invariant. */
    ghost predicate Valid()
      reads this, Repr
    {
      && this !in Repr
      && (instances != [] ==> client.Some?)
      && DistinctSlots(instances)
      && (forall inst :: inst in instances ==> inst.slots in Repr && ValidStore(inst.slots))
    }

    /** The state at load time: no client, no instance, no resend pending. */
    constructor ()
      ensures Valid()
      ensures client == None && instances == [] && !needResend
    {
      client := None;
      instances := [];
      needResend := false;
      Repr := {};
    }

    /** `jprocess_callback`: drain every listed instance in list order.
        `present(k)` says whether the `k`-th instance's port buffer is
        available this cycle and `grant(k)(i)` whether its reservation for
        slot `i` succeeds; the result holds each instance's port buffer. */
    method ProcessCallback(present: nat -> bool, grant: nat -> nat -> bool)
      returns (outs: seq<Option<seq<MidiData>>>)
      requires Valid()
      modifies Repr
      ensures Valid()
      ensures |outs| == |instances|
      ensures forall k :: 0 <= k < |instances| ==>
                Served(old(instances[k].slots[..]), instances[k].slots[..], outs[k], present(k), grant(k))
      ensures forall a :: a in Repr && (forall k :: 0 <= k < |instances| ==> a != instances[k].slots) ==> unchanged(a)
    {
      var insts := instances;
      outs := [];
      for k := 0 to |insts|
        invariant Valid() && instances == insts
        invariant |outs| == k
        invariant forall j :: 0 <= j < k ==>
                    Served(old(insts[j].slots[..]), insts[j].slots[..], outs[j], present(j), grant(j))
        invariant forall j :: k <= j < |insts| ==> insts[j].slots[..] == old(insts[j].slots[..])
        invariant forall a :: a in Repr && (forall j :: 0 <= j < |insts| ==> a != insts[j].slots) ==> unchanged(a)
      {
        var inst := insts[k];
        assert inst in insts;
        assert forall j :: 0 <= j < |insts| && j != k ==> insts[j].slots != inst.slots;
        var out := inst.Process(present(k), grant(k));
        outs := outs + [out];
      }
    }

    /** `jconnect_callback`. */
    method ConnectCallback(ev: ConnectEvent, mine: nat -> bool)
      requires Valid()
      modifies this`needResend
      ensures Valid()
      ensures needResend == RaiseResend(old(needResend), ev, mine)
    {
      if ev.connect == 0 {
        return;
      }
      if mine(ev.a) || mine(ev.b) {
        needResend := true;
      }
    }
  }
}

=== FILE: slot_store.dfy ===
/**
  The per-instance MIDI event store of JackAss (`JackAssInstance`): a fixed
  array of 512 slots filled by `putEvent` at the first free slot and emptied
  by `jprocess` in index order up to the first free slot.

  The functions below describe the store as a sequence of slots; the class
  `Instance` works on an array in place and is proved against them.
*/
module SlotStore {
  import opened Arith
  import opened Midi
  import opened Wrappers

  /** `kMaxMidiEvents`. */
  const Capacity: nat := 512

  /** Index of the first free slot at or after `i`, or `|s|` when there is
      none: the scan `putEvent` and `jprocess` perform. */
  function FirstEmptyFrom(s: seq<MidiData>, i: nat): (k: nat)
    requires i <= |s|
    ensures i <= k <= |s|
    ensures forall j :: i <= j < k ==> !IsEmpty(s[j])
    ensures k < |s| ==> IsEmpty(s[k])
    decreases |s| - i
  {
    if i == |s| || IsEmpty(s[i]) then i else FirstEmptyFrom(s, i + 1)
  }

  /** Index of the first free slot, or `|s|` when every slot is occupied. */
  function FirstEmpty(s: seq<MidiData>): (k: nat)
    ensures k <= |s|
    ensures forall i :: 0 <= i < k ==> !IsEmpty(s[i])
    ensures k < |s| ==> IsEmpty(s[k])
  {
    FirstEmptyFrom(s, 0)
  }

  /** The prefix invariant: every slot from the first free one on is free,
      so the occupied slots are exactly those before it. */
  ghost predicate Packed(s: seq<MidiData>) {
    forall j :: FirstEmpty(s) <= j < |s| ==> IsEmpty(s[j])
  }

  /** The indices of the occupied slots. */
  function Occupied(s: seq<MidiData>): set<int> {
    set i | 0 <= i < |s| && !IsEmpty(s[i])
  }

  /** The events a drain will visit, in the order it visits them. */
  function Pending(s: seq<MidiData>): seq<MidiData> {
    s[..FirstEmpty(s)]
  }

  /** The store after `putEvent(e)`: `e` in the first free slot, or no change. */
  function Put(s: seq<MidiData>, e: MidiData): seq<MidiData> {
    var k := FirstEmpty(s);
    if k < |s| then s[k := e] else s
  }

  /** The store after `putEvent` of each event of `es` in turn. */
  function PutAll(s: seq<MidiData>, es: seq<MidiData>): seq<MidiData>
    decreases |es|
  {
    if es == [] then s else Put(PutAll(s, es[..|es| - 1]), es[|es| - 1])
  }

  /** The store after a drain that found the port buffer: the slots it visited
      (all those before the first free one) are cleared, the rest kept. */
  function Drained(s: seq<MidiData>): seq<MidiData> {
    var k := FirstEmpty(s);
    seq(|s|, i requires 0 <= i < |s| => if i < k then Cleared(s[i]) else s[i])
  }

  /** Events written to the port buffer by the first `n` visits of a drain;
      `grant(i)` tells whether the reservation for slot `i` succeeded. */
  function DeliveredUpTo(s: seq<MidiData>, grant: nat -> bool, n: nat): seq<MidiData>
    requires n <= |s|
  {
    if n == 0 then []
    else DeliveredUpTo(s, grant, n - 1) + (if grant(n - 1) then [s[n - 1]] else [])
  }

  /** Events written to the port buffer by a drain of `s`. */
  function Delivered(s: seq<MidiData>, grant: nat -> bool): seq<MidiData> {
    DeliveredUpTo(s, grant, FirstEmpty(s))
  }

  /** One store's share of a process cycle, from its contents `before`: with
      its port buffer present, the buffer receives the delivered events and
      the store is drained; without it, nothing is delivered and the store
      keeps its events for the next cycle. */
  ghost predicate Served(before: seq<MidiData>, after: seq<MidiData>, out: Option<seq<MidiData>>,
                         present: bool, grant: nat -> bool)
  {
    if present then out == Some(Delivered(before, grant)) && after == Drained(before)
    else out == None && after == before
  }

  /** The store as the instance constructor leaves it. */
  function FreshStore(): seq<MidiData> {
    seq(Capacity, _ => Blank)
  }

  // ---------------------------------------------------------------------
  // Properties of the store

  /** A fresh store holds no event and satisfies the prefix invariant. */
  lemma FreshStoreEmpty()
    ensures |FreshStore()| == Capacity
    ensures Packed(FreshStore()) && Occupied(FreshStore()) == {}
    ensures FirstEmpty(FreshStore()) == 0 && Pending(FreshStore()) == []
  {
    var s := FreshStore();
    assert IsEmpty(s[0]);
    assert forall i :: 0 <= i < |s| ==> IsEmpty(s[i]);
  }

  /** Placement: `putEvent` writes into the lowest-index free slot and leaves
      every other slot alone; with no free slot the event is dropped. */
  lemma PutPlacement(s: seq<MidiData>, e: MidiData)
    ensures |Put(s, e)| == |s|
    ensures (forall i :: 0 <= i < |s| ==> !IsEmpty(s[i])) ==> Put(s, e) == s
    ensures forall k :: 0 <= k < |s| && IsEmpty(s[k]) && (forall i :: 0 <= i < k ==> !IsEmpty(s[i])) ==>
                        Put(s, e) == s[k := e]
  {
    var k := FirstEmpty(s);
    if k == |s| {
      assert forall j :: 0 <= j < |s| ==> !IsEmpty(s[j]);
    }
  }

  /** An event whose status byte is zero changes no slot's occupancy. */
  lemma PutBlankStatus(s: seq<MidiData>, e: MidiData)
    requires IsEmpty(e)
    ensures Occupied(Put(s, e)) == Occupied(s)
  {
    var r := Put(s, e);
    forall i | 0 <= i < |s|
      ensures IsEmpty(r[i]) <==> IsEmpty(s[i])
    {
    }
    assert forall i :: i in Occupied(r) <==> i in Occupied(s);
  }

  /** The prefix invariant says exactly that no occupied slot follows a free
      one, and exactly that the occupied slots are the indices
      `0 .. FirstEmpty(s) - 1`; so a drain that stops at the first free slot
      skips no occupied one. */
  lemma PackedIsPrefix(s: seq<MidiData>)
    ensures Packed(s) <==> forall i, j :: 0 <= i < j < |s| && IsEmpty(s[i]) ==> IsEmpty(s[j])
    ensures Packed(s) <==> forall i :: 0 <= i < |s| ==> (i in Occupied(s) <==> i < FirstEmpty(s))
  {
    var k := FirstEmpty(s);
    if Packed(s) {
      forall i | 0 <= i < |s|
        ensures i in Occupied(s) <==> i < k
      {
      }
    }
    if forall i :: 0 <= i < |s| ==> (i in Occupied(s) <==> i < k) {
      forall j | k <= j < |s|
        ensures IsEmpty(s[j])
      {
        assert j !in Occupied(s);
      }
    }
    if forall i, j :: 0 <= i < j < |s| && IsEmpty(s[i]) ==> IsEmpty(s[j]) {
      forall j | k < j < |s|
        ensures IsEmpty(s[j])
      {
        assert IsEmpty(s[k]);
      }
    }
  }

  /** `FirstEmpty` is determined by its contract. */
  lemma FirstEmptyIs(s: seq<MidiData>, k: nat)
    requires k <= |s|
    requires forall i :: 0 <= i < k ==> !IsEmpty(s[i])
    requires k < |s| ==> IsEmpty(s[k])
    ensures FirstEmpty(s) == k
  {
  }

  /** Where the first free slot is after `putEvent`: one further on when the
      event has a non-zero status and found room, unchanged otherwise. */
  lemma PutFirstEmpty(s: seq<MidiData>, e: MidiData)
    requires Packed(s)
    ensures FirstEmpty(Put(s, e)) == if FirstEmpty(s) < |s| && !IsEmpty(e) then FirstEmpty(s) + 1 else FirstEmpty(s)
  {
    var k := FirstEmpty(s);
    if k < |s| {
      var r := s[k := e];
      if IsEmpty(e) {
        FirstEmptyIs(r, k);
      } else {
        assert k + 1 < |r| ==> IsEmpty(r[k + 1]) by {
          if k + 1 < |s| {
            assert r[k + 1] == s[k + 1];
          }
        }
        FirstEmptyIs(r, k + 1);
      }
    }
  }

  /** `putEvent` keeps the prefix invariant. */
  lemma PutKeepsPacked(s: seq<MidiData>, e: MidiData)
    requires Packed(s)
    ensures Packed(Put(s, e))
  {
    var k := FirstEmpty(s);
    PutFirstEmpty(s, e);
    if k < |s| {
      var r := s[k := e];
      forall j | FirstEmpty(r) <= j < |r|
        ensures IsEmpty(r[j])
      {
        if j != k {
          assert r[j] == s[j];
        }
      }
    }
  }

  /** With the prefix invariant, an event with a non-zero status is appended
      to the pending events, unless the store is full. */
  lemma PutAppends(s: seq<MidiData>, e: MidiData)
    requires Packed(s) && !IsEmpty(e)
    ensures Pending(Put(s, e)) == if FirstEmpty(s) < |s| then Pending(s) + [e] else Pending(s)
  {
    var k := FirstEmpty(s);
    if k < |s| {
      var r := s[k := e];
      PutFirstEmpty(s, e);
      assert r[..k + 1] == s[..k] + [e] by {
        assert |r[..k + 1]| == k + 1;
        forall i | 0 <= i < k + 1
          ensures r[..k + 1][i] == (s[..k] + [e])[i]
        {
        }
      }
    }
  }

  /** The bookkeeping of one more event for `PutAllPending`: with `room`
      free slots, the accepted prefix grows by the last event exactly when
      there was room for it. */
  lemma AcceptedStep(p: seq<MidiData>, es: seq<MidiData>, room: nat)
    requires es != []
    ensures var n := |es| - 1;
            (if n < room then p + es[..n][..Min(n, room)] + [es[n]] else p + es[..n][..Min(n, room)])
            == p + es[..Min(|es|, room)]
  {
    var n := |es| - 1;
    if n < room {
      assert es[..n][..n] + [es[n]] == es;
      assert p + es[..n][..n] + [es[n]] == p + (es[..n][..n] + [es[n]]);
    } else {
      assert es[..n][..room] == es[..room];
    }
  }

  /** Submitting a batch of events with non-zero status to a store that keeps
      the prefix invariant appends as many of them as there are free slots, in
      submission order, and drops the rest. */
  lemma {:induction false} PutAllPending(s: seq<MidiData>, es: seq<MidiData>)
    requires Packed(s)
    requires forall i :: 0 <= i < |es| ==> !IsEmpty(es[i])
    ensures |PutAll(s, es)| == |s| && Packed(PutAll(s, es))
    ensures FirstEmpty(PutAll(s, es)) == FirstEmpty(s) + Min(|es|, |s| - FirstEmpty(s))
    ensures Pending(PutAll(s, es)) == Pending(s) + es[..Min(|es|, |s| - FirstEmpty(s))]
  {
    if es != [] {
      var n := |es| - 1;
      var front := es[..n];
      var e := es[n];
      var room := |s| - FirstEmpty(s);
      assert forall i :: 0 <= i < |front| ==> !IsEmpty(front[i]);
      PutAllPending(s, front);
      var t := PutAll(s, front);
      assert PutAll(s, es) == Put(t, e);
      PutKeepsPacked(t, e);
      PutFirstEmpty(t, e);
      var p, q := Pending(s), Pending(t);
      assert q == p + front[..Min(n, room)];
      AcceptedStep(p, es, room);
      if n < room {
        assert Pending(Put(t, e)) == q + [e] by {
          PutAppends(t, e);
        }
      } else {
        assert Pending(Put(t, e)) == q by {
          PutAppends(t, e);
        }
      }
    }
  }

  /** Capacity: between two drains, an emptied store of 512 slots accepts
      the first 512 events with non-zero status and drops any further ones. */
  lemma CapacityBound(s: seq<MidiData>, es: seq<MidiData>)
    requires |s| == Capacity && Packed(s) && Pending(s) == []
    requires forall i :: 0 <= i < |es| ==> !IsEmpty(es[i])
    ensures Pending(PutAll(s, es)) == es[..Min(|es|, Capacity)]
    ensures |es| <= Capacity ==> Pending(PutAll(s, es)) == es
  {
    PutAllPending(s, es);
    assert FirstEmpty(s) == 0;
  }

  /** With the prefix invariant a drain leaves every slot free. */
  lemma DrainEmpties(s: seq<MidiData>)
    requires Packed(s)
    ensures |Drained(s)| == |s| && Packed(Drained(s))
    ensures forall i :: 0 <= i < |s| ==> IsEmpty(Drained(s)[i])
    ensures Pending(Drained(s)) == []
  {
    var k := FirstEmpty(s);
    forall i | 0 <= i < |s|
      ensures IsEmpty(Drained(s)[i])
    {
      if k <= i {
        assert IsEmpty(s[k]);
      }
    }
  }

  /** Without the prefix invariant the early stop would strand an event: a
      store whose first slot is free and second occupied keeps the occupied
      slot through a drain. */
  lemma DrainWithGapStrandsEvent(e: MidiData)
    requires !IsEmpty(e)
    ensures !Packed([Blank, e]) && Drained([Blank, e])[1] == e
  {
    var s := [Blank, e];
    assert IsEmpty(s[0]) && !IsEmpty(s[1]);
    assert FirstEmpty(s) == 0;
  }

  /** When every reservation succeeds a drain delivers exactly the pending
      events, in slot order. */
  lemma {:induction false} DeliveredUpToAllGranted(s: seq<MidiData>, grant: nat -> bool, n: nat)
    requires n <= |s|
    requires forall i: nat :: grant(i)
    ensures DeliveredUpTo(s, grant, n) == s[..n]
  {
    if n > 0 {
      DeliveredUpToAllGranted(s, grant, n - 1);
      assert s[..n - 1] + [s[n - 1]] == s[..n];
    }
  }

  /** The slots below `n` whose reservation succeeds, in increasing order. */
  function GrantedBelow(grant: nat -> bool, n: nat): (idx: seq<nat>)
    ensures |idx| <= n
    ensures forall j :: 0 <= j < |idx| ==> idx[j] < n && grant(idx[j])
    ensures forall j, k :: 0 <= j < k < |idx| ==> idx[j] < idx[k]
    ensures forall i :: 0 <= i < n && grant(i) ==> i in idx
  {
    if n == 0 then [] else GrantedBelow(grant, n - 1) + (if grant(n - 1) then [n - 1] else [])
  }

  /** The `j`-th event a drain writes is the event of the `j`-th slot whose
      reservation succeeds. */
  lemma {:induction false} DeliveredAtGranted(s: seq<MidiData>, grant: nat -> bool, n: nat)
    requires n <= |s|
    ensures |DeliveredUpTo(s, grant, n)| == |GrantedBelow(grant, n)|
    ensures forall j :: 0 <= j < |GrantedBelow(grant, n)| ==>
              DeliveredUpTo(s, grant, n)[j] == s[GrantedBelow(grant, n)[j]]
  {
    if n > 0 {
      DeliveredAtGranted(s, grant, n - 1);
      var d, idx := DeliveredUpTo(s, grant, n - 1), GrantedBelow(grant, n - 1);
      assert DeliveredUpTo(s, grant, n) == d + (if grant(n - 1) then [s[n - 1]] else []);
      assert GrantedBelow(grant, n) == idx + (if grant(n - 1) then [n - 1] else []);
    }
  }

  /** A drain writes a subsequence of the pending events: exactly the events
      of the visited slots whose reservation succeeds, in slot order; a slot
      whose reservation fails is skipped, never replaced by another event. */
  lemma {:induction false} DeliveredUpToIsSubsequence(s: seq<MidiData>, grant: nat -> bool, n: nat)
    requires n <= |s|
    ensures |DeliveredUpTo(s, grant, n)| <= n
    ensures forall e :: e in DeliveredUpTo(s, grant, n) ==> e in s[..n]
    ensures (forall i: nat :: !grant(i)) ==> DeliveredUpTo(s, grant, n) == []
    ensures var idx := GrantedBelow(grant, n);
            && |DeliveredUpTo(s, grant, n)| == |idx|
            && forall j :: 0 <= j < |idx| ==> DeliveredUpTo(s, grant, n)[j] == s[idx[j]]
  {
    if n > 0 {
      DeliveredUpToIsSubsequence(s, grant, n - 1);
      assert forall e :: e in s[..n - 1] ==> e in s[..n];
    }
    DeliveredAtGranted(s, grant, n);
  }

  /** End to end: events submitted to an emptied store come out of the next
      drain in submission order when every reservation succeeds. */
  lemma FillThenDrain(s: seq<MidiData>, es: seq<MidiData>, grant: nat -> bool)
    requires |s| == Capacity && Packed(s) && Pending(s) == []
    requires forall i :: 0 <= i < |es| ==> !IsEmpty(es[i])
    requires forall i: nat :: grant(i)
    ensures Delivered(PutAll(s, es), grant) == es[..Min(|es|, Capacity)]
  {
    var t := PutAll(s, es);
    CapacityBound(s, es);
    PutAllPending(s, es);
    DeliveredUpToAllGranted(t, grant, FirstEmpty(t));
  }

  // ---------------------------------------------------------------------
  // The instance

  /** An output port of the shared client, known by its name. */
  datatype Port = Port(name: string)

  /** The object invariant of an instance's slot array. */
  ghost predicate ValidStore(a: array<MidiData>)
    reads a
  {
    a.Length == Capacity && Packed(a[..])
  }

  /** One plugin's MIDI output (`JackAssInstance`): its port and its slots. */
  class Instance {
    var port: Option<Port>
    const slots: array<MidiData>

    ghost predicate Valid()
      reads slots
    {
      ValidStore(slots)
    }

    /** Every slot starts default-constructed, hence free. */
    constructor (port: Port)
      ensures Valid() && fresh(slots)
      ensures this.port == Some(port) && slots[..] == FreshStore()
    {
      this.port := Some(port);
      slots := new MidiData[Capacity](_ => Blank);
      new;
      FreshStoreEmpty();
    }

    /** `putEvent(data, size, time)`: the linear scan for the first free slot. */
    method PutEvent(data: Data4, size: Byte, time: Int32)
      requires Valid()
      modifies slots
      ensures Valid()
      ensures slots[..] == Put(old(slots[..]), MidiData(data, size, time))
    {
      ghost var s0 := slots[..];
      var i := 0;
      while i < Capacity
        invariant 0 <= i <= Capacity
        invariant slots[..] == s0
        invariant forall j :: 0 <= j < i ==> !IsEmpty(slots[j])
      {
        if slots[i].data[0] == 0 {
          slots[i] := MidiData(data, size, time);
          break;
        }
        i := i + 1;
      }
      PutKeepsPacked(s0, MidiData(data, size, time));
    }

    /** The three-byte overload: the fourth data byte is zero. */
    method PutEvent3(data1: Byte, data2: Byte, data3: Byte, size: Byte, time: Int32)
      requires Valid()
      modifies slots
      ensures Valid()
      ensures slots[..] == Put(old(slots[..]), MidiData([data1, data2, data3, 0], size, time))
    {
      PutEvent([data1, data2, data3, 0], size, time);
    }

    /** `jprocess`: `present` says whether the port buffer was obtained for this
        cycle and `grant(i)` whether the reservation for slot `i` succeeds. The
        result is the cleared-then-written port buffer, or `None` when there was
        no buffer to write. */
    method Process(present: bool, grant: nat -> bool) returns (out: Option<seq<MidiData>>)
      requires Valid()
      modifies slots
      ensures Valid()
      ensures !present ==> out == None && slots[..] == old(slots[..])
      ensures present ==> out == Some(Delivered(old(slots[..]), grant))
      ensures present ==> slots[..] == Drained(old(slots[..]))
      ensures present ==> forall i :: 0 <= i < slots.Length ==> IsEmpty(slots[i])
    {
      if !present {
        return None;
      }
      ghost var s0 := slots[..];
      var written := [];
      var i: nat := 0;
      while i < Capacity
        invariant i <= FirstEmpty(s0)
        invariant forall j :: 0 <= j < i ==> slots[j] == Cleared(s0[j])
        invariant forall j :: i <= j < Capacity ==> slots[j] == s0[j]
        invariant written == DeliveredUpTo(s0, grant, i)
      {
        if slots[i].data[0] == 0 {
          break;
        }
        if grant(i) {
          written := written + [slots[i]];
        }
        slots[i] := Cleared(slots[i]);
        i := i + 1;
      }
      assert i == FirstEmpty(s0);
      assert slots[..] == Drained(s0);
      DrainEmpties(s0);
      out := Some(written);
    }

    /** `~JackAssInstance`: the port is unregistered from the client when the
        client is still open, and forgotten in any case. */
    method Close(clientOpen: bool) returns (unregistered: Option<Port>)
      modifies this
      ensures port == None
      ensures unregistered == if clientOpen then old(port) else None
    {
      unregistered := if clientOpen then port else None;
      port := None;
    }
  }
}
